=== FILE: README.md ===
# IntentResolver decision core in Dafny

This project models the decision logic inside Android's IntentResolver, the
"Open with…" / "Share via…" screens. Most of that code is Activity and View
glue. The parts modelled here are the pure decisions and the two small state
containers:

- **Cross-profile blocker policy** (`NoCrossProfileEmptyState`). For the tab being
  rendered, it decides whether the tab shows a "can't share across profiles"
  message instead of its targets. It also models the device-policy blocker
  message: title and subtitle with fallbacks, the logged event, and the
  skip-rebuild flag.
- **Resolver decisions** in `ResolverActivity`, split by concern:
  - `ResolverActionTitle`: the action → title table.
  - `ResolverUriMatch`: the "specific URI match" test on intent-filter match results.
  - `ResolverProfileTabs`: the selected-profile extra, the default tab, the initial tab, and the users passed to the ranking service.
  - `ResolverAutolaunch`: the mini-resolver predicate, the single-profile and cross-profile auto-launch paths, and the cross-profile permission test.
  - `ResolverPreferredActivity`: the component set and best match level recorded when the user picks a target.
- **Image-preview strip** (`ImagePreviewAdapter`). The adapter's previews,
  first-image position, total item count and trailing "+N other items" cell,
  as an immutable state with `Reset` / `AddPreviews` transitions and the change
  notifications they send. It also covers the spacing decoration's margin rule.
- **Preview selection repository** (`PreviewSelections`). A nullable set with
  `setSelection`, `select` and `unselect`. Before the first `setSelection`,
  single-item changes are no-ops.

Platform services are parameters of the model:
- The profile-type lookup, the cross-profile intents checker, the package manager's application-info lookup and the permission checks are function-valued inputs.
- Device-policy string overrides and string resources are function-valued inputs too.
- The blocker message's device-policy event log is an explicit sequence of events (`OnEmptyStateShown`).
- The device-policy event written before a cross-profile auto-launch is returned as a value alongside the launched target (`ResolverAutolaunch.CrossProfileLaunch`).

Two behaviours of `NoCrossProfileEmptyStateProvider.java` are worth pointing out,
because its own class comment (lines 39-42) reads otherwise. That comment says
the provider blocks when the tab's profile is not the calling app's profile.

- The cross-profile intents checker is called with the **tab owner as both
  source and target**: `anyCrossProfileAllowedIntents` uses the tab's user as
  the target (lines 61-66), and `getEmptyState` passes the same tab owner as the
  source (line 85). `GetEmptyState` states the call as written.
  `SelfOnlyQueryIgnoresForwardingRules` shows the consequence: if the checker
  answers no to every same-user query, the decision is the same as with a
  checker that always says no.
- Showing a blocker writes its device-policy event **on every call** to
  `onEmptyStateShown` (lines 144-148). Nothing in the class limits the event to
  the first display. `ShowRepeatedlyLogsEveryTime` states that `k` showings log
  `k` events.

`ResolverActivity.java` lines 496-501 construct the provider with five
arguments, while the provider's own file has a four-argument constructor. The
model follows the provider's own file.

`PROFILE_PERSONAL = 0` and `PROFILE_WORK = 1` are the tab indices `ResolverActivity` takes from the app's own `MultiProfilePagerAdapter` (lines 222-223); that class is not part of this model. The resolver's own metrics category is `"intent_resolver"` (line 182).

Constants the source takes from the Android platform have their platform values:
- The intent-filter `MATCH_CATEGORY_*` masks and categories: mask `0x0FFF0000`, HOST `0x00300000`, PATH `0x00500000`, and so on.
- `PERMISSION_GRANTED = 0`.
- The intent action strings: `android.intent.action.VIEW` and so on.

## Model

| member | source | states |
|---|---|---|
| NoCrossProfileEmptyState.GetEmptyState | java/src/com/android/intentresolver/v2/emptystate/NoCrossProfileEmptyStateProvider.java:68-94 | No blocker if either profile is private, if the launching user owns the tab, or if the checker (asked with source = target = tab owner) allows an intent. Otherwise WORK gives the work→personal blocker, PERSONAL the personal→work one, and any other type fails open. Only those three results occur. |
| NoCrossProfileEmptyState.AnyCrossProfileAllowedIntents | java/src/com/android/intentresolver/v2/emptystate/NoCrossProfileEmptyStateProvider.java:61-66 | The checker is asked about the tab's intents forwarded from the given source user to the tab's own user. |
| NoCrossProfileEmptyState.OnlyDiagonalQueryMatters | java/src/com/android/intentresolver/v2/emptystate/NoCrossProfileEmptyStateProvider.java:61-87 | The decision depends on the checker only through its answer for the tab owner forwarding to itself. |
| NoCrossProfileEmptyState.SelfOnlyQueryIgnoresForwardingRules | java/src/com/android/intentresolver/v2/emptystate/NoCrossProfileEmptyStateProvider.java:61-87 | With a checker that never allows same-user forwarding, the result equals that of a checker that always refuses: forwarding rules never unblock a tab. |
| NoCrossProfileEmptyState.Title | java/src/com/android/intentresolver/v2/emptystate/NoCrossProfileEmptyStateProvider.java:127-133 | The title is the device-policy override when set, else the default title resource. |
| NoCrossProfileEmptyState.Subtitle | java/src/com/android/intentresolver/v2/emptystate/NoCrossProfileEmptyStateProvider.java:135-141 | The subtitle is the device-policy override when set, else the default subtitle resource. |
| NoCrossProfileEmptyState.StringsReadOnlyTheirOwnSources | java/src/com/android/intentresolver/v2/emptystate/NoCrossProfileEmptyStateProvider.java:127-141 | The title depends only on the title override and, when that is unset, the default title resource; likewise the subtitle with its own id and resource. |
| NoCrossProfileEmptyState.OnEmptyStateShown | java/src/com/android/intentresolver/v2/emptystate/NoCrossProfileEmptyStateProvider.java:143-148 | Each showing appends exactly the message's event id and category to the log and keeps the earlier log. |
| NoCrossProfileEmptyState.ShowRepeatedlyLogsEveryTime | java/src/com/android/intentresolver/v2/emptystate/NoCrossProfileEmptyStateProvider.java:143-148 | k showings log k identical events: nothing restricts logging to the first display. |
| NoCrossProfileEmptyState.ShouldSkipDataRebuild | java/src/com/android/intentresolver/v2/emptystate/NoCrossProfileEmptyStateProvider.java:150-153 | A blocker always asks to skip the data rebuild. |
| NoCrossProfileEmptyState.BlockerSkipsDataRebuild | java/src/com/android/intentresolver/v2/emptystate/NoCrossProfileEmptyStateProvider.java:85-93 | Every blocker the policy returns asks to skip the data rebuild. |
| ResolverActionTitle.FindTitle | java/src/com/android/intentresolver/v2/ResolverActivity.java:305-312 | Returns the first entry in declaration order that is not HOME and whose action equals the non-null action; none exactly when no entry matches. |
| ResolverActionTitle.ForAction | java/src/com/android/intentresolver/v2/ResolverActivity.java:305-312 | Never HOME. A null action gives DEFAULT. Any other result carries the given action. DEFAULT is returned exactly when no entry matches. |
| ResolverActionTitle.ForActionInvertsAction | java/src/com/android/intentresolver/v2/ResolverActivity.java:253-312 | Every entry but DEFAULT and HOME is recovered from its own action string. |
| ResolverActionTitle.MainActionGetsDefaultTitle | java/src/com/android/intentresolver/v2/ResolverActivity.java:281-312 | The MAIN action (HOME's) yields DEFAULT. |
| ResolverUriMatch.IsSpecificUriMatch | java/src/com/android/intentresolver/v2/ResolverActivity.java:2234-2238 | True iff the category's bits 20-27 read 3 or 4, or read 5 with bits 16-19 clear. This is the range HOST..PATH of the masked category. |
| ResolverUriMatch.OnlyCategoryMatters | java/src/com/android/intentresolver/v2/ResolverActivity.java:2234-2238 | Two match results with equal masked categories get the same answer: adjustment bits and the sign bit are ignored. |
| ResolverUriMatch.NamedCategories | java/src/com/android/intentresolver/v2/ResolverActivity.java:2234-2238 | With any adjustment, HOST, PORT and PATH are specific. EMPTY, SCHEME, SCHEME_SPECIFIC_PART and TYPE are not. |
| ResolverProfileTabs.GetSelectedProfileExtra | java/src/com/android/intentresolver/v2/ResolverActivity.java:1198-1209 | Returns -1 iff the extra is absent. Returns the value when it reads PERSONAL or WORK. Raises an illegal-argument error, carrying the value read, for anything else, including a non-int extra (read as -1). |
| ResolverProfileTabs.GetCurrentProfile | java/src/com/android/intentresolver/v2/ResolverActivity.java:1211-1215 | PERSONAL iff the launch tab owner is the personal user, otherwise WORK. |
| ResolverProfileTabs.GetIntentUser | java/src/com/android/intentresolver/v2/ResolverActivity.java:1131-1135 | The calling-user extra's value, possibly null, when the extra is present; the launch's tab owner when it is absent. |
| ResolverProfileTabs.InitialSelectedProfile | java/src/com/android/intentresolver/v2/ResolverActivity.java:1145-1158 | If the intent user differs from the tab owner (a null intent user always differs), the tab follows that user (personal, work, else the default) and the selected-profile extra is not read. Otherwise an invalid extra fails, a valid one overrides, and an absent one keeps the default. Any success is PERSONAL or WORK. |
| ResolverProfileTabs.NoExtrasOpensDefaultTab | java/src/com/android/intentresolver/v2/ResolverActivity.java:1145-1158 | With no extras the initial tab is the default, which is PERSONAL iff the tab owner is the personal user. |
| ResolverProfileTabs.CallingUserShadowsSelectedExtra | java/src/com/android/intentresolver/v2/ResolverActivity.java:1146-1158 | When the calling user differs from the tab owner, the selected-profile extra is never read: even a malformed one gives no error and no effect. |
| ResolverProfileTabs.NullCallingUserKeepsDefaultTab | java/src/com/android/intentresolver/v2/ResolverActivity.java:1131-1158 | A calling-user extra holding null keeps the default tab and never reads the selected-profile extra, so even a malformed one raises no error. |
| ResolverProfileTabs.InitialTabShowsIntentUser | java/src/com/android/intentresolver/v2/ResolverActivity.java:1145-1158 | When the tab owner is the personal or the (distinct) work user, the default tab shows the tab owner, and an intent from either profile's user opens on that user's own tab. |
| ResolverProfileTabs.RankerServiceUserHandles | java/src/com/android/intentresolver/v2/ResolverActivity.java:2294-2306 | The list starts with the tab's user. It has a second entry, the clone user, iff the tab is personal and a clone profile exists. |
| ResolverProfileTabs.WorkTabNeverRanksClone | java/src/com/android/intentresolver/v2/ResolverActivity.java:2294-2306 | The work tab's list is the work user alone; the clone user never appears in it. |
| ResolverAutolaunch.ShouldUseMiniResolver | java/src/com/android/intentresolver/v2/ResolverActivity.java:1736-1770 | True iff all hold: intent picker; both adapters present; this profile has >0 targets, all browsers; the other profile has exactly 1 target and is not browsers-only. |
| ResolverAutolaunch.ShouldAutoLaunchSingleChoice | java/src/com/android/intentresolver/v2/ResolverActivity.java:862-864 | A target may be auto-launched exactly when its app is not suspended. |
| ResolverAutolaunch.MaybeAutolaunchIfSingleTarget | java/src/com/android/intentresolver/v2/ResolverActivity.java:1819-1838 | Launches iff the unfiltered count is 1, there is no other-profile entry, and the target is not suspended. The launched target is that only target. |
| ResolverAutolaunch.CanAppInteractCrossProfiles | java/src/com/android/intentresolver/v2/ResolverActivity.java:1899-1926 | False for a missing package or an unset cross-profile flag. Otherwise true iff one of INTERACT_ACROSS_USERS_FULL, INTERACT_ACROSS_USERS or the interact-across-profiles preflight is granted. |
| ResolverAutolaunch.CanAppInteractCrossProfilesMonotone | java/src/com/android/intentresolver/v2/ResolverActivity.java:1899-1926 | For the same installed apps, granting more permissions never turns the answer from true to false. |
| ResolverAutolaunch.MaybeAutolaunchIfCrossProfileSupported | java/src/com/android/intentresolver/v2/ResolverActivity.java:1847-1882 | Launches iff both unfiltered counts are 1, the two targets have equal components, the target is not suspended, and its package may act across profiles. The launched target is the active tab's. The RESOLVER_AUTOLAUNCH_CROSS_PROFILE_TARGET event is produced exactly with a launch, carrying whether the active tab is the personal user's and the category "intent_resolver". |
| ResolverAutolaunch.CrossProfileLaunchNeedsCrossProfileFlag | java/src/com/android/intentresolver/v2/ResolverActivity.java:1847-1909 | A cross-profile launch only starts an app that is installed and declares the cross-profile flag. |
| ResolverAutolaunch.MaybeAutolaunchActivity | java/src/com/android/intentresolver/v2/ResolverActivity.java:1803-1817 | One tab: only the single-target path can fire. Two loaded tabs: only the cross-profile path. A launched target is the active tab's only target, not suspended, and for cross-profile also the inactive tab's component, with its device-policy event. |
| ResolverAutolaunch.PostRebuildListInternal | java/src/com/android/intentresolver/v2/ResolverActivity.java:1777-1793 | Creation halts iff the rebuild completed and some auto-launch fired; so never before the rebuild completes, and only with a single, non-suspended target on the active tab. |
| ResolverAutolaunch.MiniResolverExcludesCrossProfileLaunch | java/src/com/android/intentresolver/v2/ResolverActivity.java:1736-1871 | For tabs whose counts and browser flags reflect their targets, the mini resolver and a cross-profile auto-launch never both apply. |
| ResolverPreferredActivity.ComponentSetAndBestMatch | java/src/com/android/intentresolver/v2/ResolverActivity.java:784-813 | The set has N entries, or N+1 with an other-profile entry, in list order with the forwarding component last. bestMatch is the maximum of 0, every entry's match and the other-profile match. |
| ResolverPreferredActivity.OnTargetSelected | java/src/com/android/intentresolver/v2/ResolverActivity.java:693-851 | A preference is recorded iff there is an intent, the list supports "always" or has a filtered item, an unfiltered list exists, and the filter was built (a malformed MIME type skips the preference, with the scheme step guarded as described under "## Findings"). "Always" adds a preferred activity for the intent's own (possibly null) component, with the best match and the set of every unfiltered component in order followed by the other-profile component, then sets the default browser iff the target handles all web URIs and none is set. Otherwise it records the last choice. The result is false iff the target is suspended. |
| ResolverPreferredActivity.OnTargetSelectedAsWritten | java/src/com/android/intentresolver/v2/ResolverActivity.java:693-850 | As written, the handler throws a null dereference exactly when it rebuilds a filter, the MIME type was malformed (line 731) and the data scheme is neither "file" nor "content" (lines 735-742). On every other input it records what `OnTargetSelected` records and finishes iff the target is not suspended. |
| ResolverPreferredActivity.NullFilterCrashExample | java/src/com/android/intentresolver/v2/ResolverActivity.java:724-742 | An "always" choice with a malformed MIME type and an https data URI throws as written; the guarded handler records nothing and starts the target. |
| ImagePreviewAdapter.IndexOfFirstImage | java/src/com/android/intentresolver/widget/ScrollableImagePreviewView.kt:250 | The position of the first Image preview, or -1 exactly when there is none. |
| ImagePreviewAdapter.ItemCount | java/src/com/android/intentresolver/widget/ScrollableImagePreviewView.kt:273 | The cell count is the preview count, plus one exactly when fewer previews than items are loaded. |
| ImagePreviewAdapter.ItemViewType | java/src/com/android/intentresolver/widget/ScrollableImagePreviewView.kt:275-281 | The "other items" layout is used exactly at the position equal to the number of loaded previews. |
| ImagePreviewAdapter.ViewTypesMatchCells | java/src/com/android/intentresolver/widget/ScrollableImagePreviewView.kt:275-281 | Among shown cells, only the trailing cell (when present) uses the "other" layout. Every position below the preview count is an image. |
| ImagePreviewAdapter.Reset | java/src/com/android/intentresolver/widget/ScrollableImagePreviewView.kt:236-242 | No previews, firstImagePos -1, total max(0, n). The invariant holds, one cell shows iff n > 0, and a full data-set change is reported. |
| ImagePreviewAdapter.AddPreviews | java/src/com/android/intentresolver/widget/ScrollableImagePreviewView.kt:244-262 | An empty batch changes nothing. Otherwise the batch is appended in order with the total kept. A set firstImagePos never moves; an unset one becomes the absolute index of the batch's first image. The range insert is reported, then the trailing cell's removal or insertion exactly when it disappears or appears. |
| ImagePreviewAdapter.IndexOfFirstImageAppend | java/src/com/android/intentresolver/widget/ScrollableImagePreviewView.kt:249-252 | The first image of a concatenation is the first of the prefix, or else the first of the suffix shifted by the prefix's length. |
| ImagePreviewAdapter.AddPreviewsPreservesValid | java/src/com/android/intentresolver/widget/ScrollableImagePreviewView.kt:244-252 | `addPreviews` keeps firstImagePos equal to the position of the first loaded image. |
| ImagePreviewAdapter.AddPreviewsNotificationsTrackItemCount | java/src/com/android/intentresolver/widget/ScrollableImagePreviewView.kt:253-261 | Replaying the reported notifications on the old cell count gives exactly the new cell count. |
| ImagePreviewAdapter.ItemOffsets | java/src/com/android/intentresolver/widget/ScrollableImagePreviewView.kt:405-408 | Left margin is outer at position 0, else inner. Right margin is outer at the last position, else 0. Top and bottom are 0. |
| ImagePreviewAdapter.GetItemOffsets | java/src/com/android/intentresolver/widget/ScrollableImagePreviewView.kt:403-409 | Without an adapter the rectangle is left untouched. Otherwise it gets the item's margins for the adapter's item count. |
| ImagePreviewAdapter.StripMarginsTotal | java/src/com/android/intentresolver/widget/ScrollableImagePreviewView.kt:403-409 | The first k of n cells carry outer + (k-1)·inner of horizontal margin, plus outer more when k = n. |
| ImagePreviewAdapter.OtherItemClosesStrip | java/src/com/android/intentresolver/widget/ScrollableImagePreviewView.kt:273-281 | A present "other" cell is the last cell and gets the outer right margin. |
| PreviewSelections.Initial | java/src/com/android/intentresolver/contentpreview/payloadtoggle/data/repository/PreviewSelectionsRepository.kt:34 | The repository starts uninitialised, with nothing selected. |
| PreviewSelections.SetSelection | java/src/com/android/intentresolver/contentpreview/payloadtoggle/data/repository/PreviewSelectionsRepository.kt:38-40 | The state becomes exactly the given set, whatever it was. |
| PreviewSelections.Select | java/src/com/android/intentresolver/contentpreview/payloadtoggle/data/repository/PreviewSelectionsRepository.kt:42-50 | Uninitialised: no change. Otherwise s ∪ {x}, with x selected and every other item's membership unchanged. |
| PreviewSelections.Unselect | java/src/com/android/intentresolver/contentpreview/payloadtoggle/data/repository/PreviewSelectionsRepository.kt:52-60 | Uninitialised: no change. Otherwise s \ {x}, with x unselected and every other item's membership unchanged. |
| PreviewSelections.SelectIdempotent | java/src/com/android/intentresolver/contentpreview/payloadtoggle/data/repository/PreviewSelectionsRepository.kt:44 | Selecting an item twice equals selecting it once. |
| PreviewSelections.UnselectAbsentIsNoOp | java/src/com/android/intentresolver/contentpreview/payloadtoggle/data/repository/PreviewSelectionsRepository.kt:54 | Unselecting an item that is not selected leaves the state unchanged. |
| PreviewSelections.SelectUnselectInverse | java/src/com/android/intentresolver/contentpreview/payloadtoggle/data/repository/PreviewSelectionsRepository.kt:42-60 | `unselect` undoes `select` of an unselected item; `select` undoes `unselect` of a selected one. |
| PreviewSelections.UninitialisedUntilSet | java/src/com/android/intentresolver/contentpreview/payloadtoggle/data/repository/PreviewSelectionsRepository.kt:42-60 | No sequence of `select`/`unselect` calls on a fresh repository ever initialises it. |
| PreviewSelections.Emitted | java/src/com/android/intentresolver/contentpreview/payloadtoggle/data/repository/PreviewSelectionsRepository.kt:36 | The exposed flow yields only values of initialised states, at most one per state: nothing while all states are null, each state's set in order when none is, and a leading initialised state's set first. |
| PreviewSelections.EmittedAppend | java/src/com/android/intentresolver/contentpreview/payloadtoggle/data/repository/PreviewSelectionsRepository.kt:36 | Filtering distributes over concatenation, so values are emitted in the order of the states. |
| PreviewSelections.InitialisedStaysInitialised | java/src/com/android/intentresolver/contentpreview/payloadtoggle/data/repository/PreviewSelectionsRepository.kt:38-60 | Once a set is stored, no later call returns the repository to null. |
| PreviewSelections.UninitialisedPrefixSplitsTrace | java/src/com/android/intentresolver/contentpreview/payloadtoggle/data/repository/PreviewSelectionsRepository.kt:42-60 | Calls made before initialisation leave the repository as created, so what follows them runs as on a fresh repository. |
| PreviewSelections.FirstEmissionIsFirstSetSelection | java/src/com/android/intentresolver/contentpreview/payloadtoggle/data/repository/PreviewSelectionsRepository.kt:34-60 | Nothing passes the null filter before the first `setSelection`; its set is the first value to pass, and every later call's state passes it too. A call that leaves the set unchanged still counts, because values equal to the previous one are not dropped in the model (see "## Left out"). |

## Left out

- Activity lifecycle, views, tabs, package monitors, window insets, toasts and voice-interaction requests in `ResolverActivity`. These are framework callbacks with nothing to state beyond the decisions above.
- Platform services: PackageManager, UserManager, DevicePolicyManager string lookups and permission checkers are function-valued inputs. The blocker event and the cross-profile auto-launch event are modelled as values (see above). The other analytics writes in `ResolverActivity` are not modelled: the `MetricsLogger` actions (lines 440 and 654-664), the cross-profile target-opened event (lines 1268-1280) and the tab-switch event (lines 1973-1977). They only record analytics and decide nothing.
- The intent-filter reconstruction in `onTargetSelected` (`ResolverActivity.java` lines 700-781). It uses IntentFilter, PatternMatcher and AuthorityEntry matching, which is platform code. The model keeps only how the rebuild ended: built, or nulled by a malformed MIME type together with the data URI's scheme.
- Starting activities (`safelyStartActivity`) and `finish()`. The auto-launch functions return which target would be started instead.
- `BatchPreviewLoader`, its throttling and coroutine plumbing, and `PreviewViewHolder` image loading in `ScrollableImagePreviewView.kt`. They exist for concurrency and image decoding.
- Floating-point aspect-ratio code: `updateMaxAspectRatio`, `updatePreviewSize`, and the preview's aspect-ratio string.
- The transition-element callback bookkeeping of the preview adapter (`onTransitionElementReady`).
- PreviewSelections.Emitted: models the flow's null filtering only. The state flow's conflation of repeated equal values is not modelled.
- PreviewSelections.FirstEmissionIsFirstSetSelection: counts one value per call after the first `setSelection`. The real `MutableStateFlow` (line 34) emits nothing when the new value equals the previous one. So a repeated `setSelection` of the same set, a `select` of an item already selected (line 44) or an `unselect` of an item not selected (line 54) emits no value in the program. A slow collector may also miss intermediate values. Both belong to the coroutine runtime, outside the model.
- Debug logging (`Log.*`) is not modelled; it decides nothing. In the modelled code this covers `Log.w` at `PreviewSelectionsRepository.kt` lines 46 and 56, and `Log.w`/`Log.d`/`Log.e` at `ResolverActivity.java` lines 730, 834, 1750-1765 and 1904.
- ResolverUriMatch.IsSpecificUriMatch: takes the match result as its 32-bit two's-complement pattern rather than a Java `int`. The conversion between the two is not modelled.
- ResolverProfileTabs.InitialSelectedProfile: requires a work profile handle. The source dereferences it in this two-profile path, and the two-profile pager is only built when a work profile exists.
- ResolverAutolaunch.MaybeAutolaunchActivity: requires an inactive tab whenever the pager has two profiles. That is the pager's own invariant; the source dereferences the inactive adapter without a check.
- Determinism of the blocker policy over repeated calls holds by construction: every function here is pure, so it needs no separate statement.

## Findings

| source | as written | input that shows it | evidently intended | confidence | as-written member | corrected member |
|---|---|---|---|---|---|---|
| java/src/com/android/intentresolver/v2/ResolverActivity.java:724-742 | After a malformed MIME type sets the rebuilt filter to null (line 731), the scheme block still calls `filter.addDataScheme` (line 742) whenever the data scheme is neither "file" nor "content". | An "always" pick of a TYPE match whose resolved MIME type is malformed, with an `https:` data URI: `onTargetSelected` throws a NullPointerException before starting the target. | The scheme block is skipped for a null filter, as the `filter != null` check at line 783 already assumes: no preference is recorded and the target is still started. | medium; not executed | ResolverPreferredActivity.OnTargetSelectedAsWritten, ResolverPreferredActivity.NullFilterCrashExample | ResolverPreferredActivity.OnTargetSelected |

=== FILE: image_preview_adapter.dfy ===
/** The horizontal image-preview strip of the share sheet: the adapter's
    bookkeeping of loaded previews and of the trailing "+N other items" cell,
    and the spacing decoration that puts margins between the cells. */
module ImagePreviewAdapter {
  import opened Wrappers

  datatype PreviewType = Image | Video | File

  /** A preview: its type and the content it shows. */
  datatype Preview = Preview(kind: PreviewType, uri: string)

  /** The adapter's state: the previews loaded so far, the position of the
      first image (-1 until one is loaded; it becomes the shared transition
      element), and the total number of items being shared. */
  datatype Adapter = Adapter(previews: seq<Preview>, firstImagePos: int, totalItemCount: int)

  /** The two cell layouts: a preview image, or the trailing "other items" label. */
  datatype ViewType = ImageItem | OtherItem

  /** The change notifications the adapter sends to its view. */
  datatype Notification =
    | DataSetChanged
    | ItemRangeInserted(positionStart: int, itemCount: int)
    | ItemInserted(position: int)
    | ItemRemoved(position: int)

  /** Kotlin's `indexOfFirst { it.type == Image }`: -1 when there is no image. */
  function IndexOfFirstImage(ps: seq<Preview>): (i: int)
    ensures -1 <= i < |ps|
    ensures i >= 0 ==> ps[i].kind == Image && forall j :: 0 <= j < i ==> ps[j].kind != Image
    ensures i == -1 <==> forall j :: 0 <= j < |ps| ==> ps[j].kind != Image
    decreases |ps|
  {
    if |ps| == 0 then -1
    else if ps[0].kind == Image then 0
    else
      var k := IndexOfFirstImage(ps[1..]);
      assert forall j :: 1 <= j < |ps| ==> ps[j] == ps[1..][j - 1];
      if k < 0 then -1 else k + 1
  }

  /** The adapter's invariant: the total is never negative and `firstImagePos`
      is exactly the position of the first loaded image. */
  ghost predicate Valid(a: Adapter) {
    a.totalItemCount >= 0 && a.firstImagePos == IndexOfFirstImage(a.previews)
  }

  /** The trailing cell exists while fewer previews are loaded than items shared. */
  predicate HasOtherItem(a: Adapter) {
    |a.previews| < a.totalItemCount
  }

  /** The number of cells shown: one per loaded preview, plus the trailing cell. */
  function ItemCount(a: Adapter): (n: nat)
    ensures n == |a.previews| || n == |a.previews| + 1
    ensures n == |a.previews| + 1 <==> |a.previews| < a.totalItemCount
  {
    |a.previews| + if HasOtherItem(a) then 1 else 0
  }

  /** The layout of the cell at `position`: the "other items" layout exactly
      at the position just past the loaded previews. */
  function ItemViewType(a: Adapter, position: int): (t: ViewType)
    ensures t == OtherItem <==> position == |a.previews|
  {
    if position == |a.previews| then OtherItem else ImageItem
  }

  /** Among the cells shown, the "other items" layout is used by the trailing
      cell alone, and every other cell shows the loaded preview at its position. */
  lemma ViewTypesMatchCells(a: Adapter, position: int)
    requires 0 <= position < ItemCount(a)
    ensures ItemViewType(a, position) == OtherItem <==> HasOtherItem(a) && position == ItemCount(a) - 1
    ensures ItemViewType(a, position) == ImageItem <==> position < |a.previews|
  {
  }

  /** `reset`: drop every preview and start over for `totalItemCount` items. */
  function Reset(totalItemCount: int): (r: (Adapter, Notification))
    ensures r.0.previews == [] && r.0.firstImagePos == -1
    ensures r.0.totalItemCount == if totalItemCount < 0 then 0 else totalItemCount
    ensures Valid(r.0)
    ensures ItemCount(r.0) == if totalItemCount > 0 then 1 else 0
    ensures r.1 == DataSetChanged
  {
    (Adapter([], -1, if 0 > totalItemCount then 0 else totalItemCount), DataSetChanged)
  }

  /** `addPreviews`: append a batch of loaded previews and report the change. */
  function AddPreviews(a: Adapter, newPreviews: seq<Preview>): (r: (Adapter, seq<Notification>))
    // an empty batch changes nothing and reports nothing
    ensures |newPreviews| == 0 ==> r == (a, [])
    // the batch is appended in order; the total is untouched
    ensures r.0.previews == a.previews + newPreviews
    ensures r.0.totalItemCount == a.totalItemCount
    // a first-image position once found never moves
    ensures a.firstImagePos >= 0 ==> r.0.firstImagePos == a.firstImagePos
    // otherwise it becomes the absolute position of the batch's first image, if any
    ensures a.firstImagePos < 0 && IndexOfFirstImage(newPreviews) >= 0 ==>
              r.0.firstImagePos == |a.previews| + IndexOfFirstImage(newPreviews)
    ensures a.firstImagePos < 0 && IndexOfFirstImage(newPreviews) < 0 ==>
              r.0.firstImagePos == a.firstImagePos
    // the batch is reported inserted where it went, then the trailing cell's change
    ensures |newPreviews| > 0 ==>
              && 1 <= |r.1| <= 2
              && r.1[0] == ItemRangeInserted(|a.previews|, |newPreviews|)
              && (|r.1| == 2 <==> HasOtherItem(a) != HasOtherItem(r.0))
              && (HasOtherItem(a) && !HasOtherItem(r.0) ==> r.1[1] == ItemRemoved(|r.0.previews|))
              && (!HasOtherItem(a) && HasOtherItem(r.0) ==> r.1[1] == ItemInserted(|r.0.previews|))
  {
    if |newPreviews| == 0 then (a, [])
    else
      var insertPos := |a.previews|;
      var hadOtherItem := HasOtherItem(a);
      var previews := a.previews + newPreviews;
      var firstImagePos :=
        if a.firstImagePos < 0 then
          var pos := IndexOfFirstImage(newPreviews);
          if pos >= 0 then insertPos + pos else a.firstImagePos
        else a.firstImagePos;
      var a' := Adapter(previews, firstImagePos, a.totalItemCount);
      var inserted := [ItemRangeInserted(insertPos, |newPreviews|)];
      var trailing :=
        if hadOtherItem && |previews| >= a.totalItemCount then [ItemRemoved(|previews|)]
        else if !hadOtherItem && |previews| < a.totalItemCount then [ItemInserted(|previews|)]
        else [];
      (a', inserted + trailing)
  }

  /** The first image of `xs + ys` is the first of `xs`, or else the first of
      `ys` shifted past `xs`. */
  lemma {:induction false} IndexOfFirstImageAppend(xs: seq<Preview>, ys: seq<Preview>)
    ensures IndexOfFirstImage(xs + ys) ==
              if IndexOfFirstImage(xs) >= 0 then IndexOfFirstImage(xs)
              else if IndexOfFirstImage(ys) >= 0 then |xs| + IndexOfFirstImage(ys)
              else -1
    decreases |xs|
  {
    if |xs| > 0 && xs[0].kind != Image {
      assert (xs + ys)[1..] == xs[1..] + ys;
      IndexOfFirstImageAppend(xs[1..], ys);
    } else if |xs| == 0 {
      assert xs + ys == ys;
    }
  }

  /** `addPreviews` keeps the adapter's invariant: `firstImagePos` stays the
      position of the first loaded image. */
  lemma AddPreviewsPreservesValid(a: Adapter, newPreviews: seq<Preview>)
    requires Valid(a)
    ensures Valid(AddPreviews(a, newPreviews).0)
  {
    IndexOfFirstImageAppend(a.previews, newPreviews);
  }

  /** The cell count a view derives by replaying notifications on a known count. */
  function ApplyNotifications(count: int, notes: seq<Notification>, freshCount: int): int
    decreases |notes|
  {
    if |notes| == 0 then count
    else
      var c := match notes[0]
        case DataSetChanged => freshCount
        case ItemRangeInserted(_, k) => count + k
        case ItemInserted(_) => count + 1
        case ItemRemoved(_) => count - 1;
      ApplyNotifications(c, notes[1..], freshCount)
  }

  /** The notifications `addPreviews` sends are exact: replayed on the old
      cell count they give the new cell count. */
  lemma AddPreviewsNotificationsTrackItemCount(a: Adapter, newPreviews: seq<Preview>)
    ensures var r := AddPreviews(a, newPreviews);
            ApplyNotifications(ItemCount(a), r.1, ItemCount(r.0)) == ItemCount(r.0)
  {
    var r := AddPreviews(a, newPreviews);
    if |newPreviews| > 0 {
      var c1 := ItemCount(a) + |newPreviews|;
      assert ApplyNotifications(ItemCount(a), r.1, ItemCount(r.0))
             == ApplyNotifications(c1, r.1[1..], ItemCount(r.0));
      if |r.1| == 2 {
        assert r.1[1..][1..] == [];
      }
    }
  }

  /** An item's margins on its four sides. */
  datatype Rect = Rect(left: int, top: int, right: int, bottom: int)

  /** The spacing decoration: the first cell gets the outer spacing on its
      left and every other cell the inner spacing; only the last cell gets a
      right margin, the outer spacing; there is no vertical margin. */
  function ItemOffsets(itemCount: int, pos: int, innerSpacing: int, outerSpacing: int): (r: Rect)
    ensures r.top == 0 && r.bottom == 0
    ensures pos == 0 ==> r.left == outerSpacing
    ensures pos != 0 ==> r.left == innerSpacing
    ensures pos == itemCount - 1 ==> r.right == outerSpacing
    ensures pos != itemCount - 1 ==> r.right == 0
  {
    var leftMargin := if pos == 0 then outerSpacing else innerSpacing;
    var rightMargin := if pos == itemCount - 1 then outerSpacing else 0;
    Rect(leftMargin, 0, rightMargin, 0)
  }

  /** `getItemOffsets` on an `outRect`: untouched without an adapter. */
  function GetItemOffsets(adapterItemCount: Option<int>, pos: int, innerSpacing: int,
                          outerSpacing: int, outRect: Rect): (r: Rect)
    ensures adapterItemCount.None? ==> r == outRect
    ensures adapterItemCount.Some? ==> r == ItemOffsets(adapterItemCount.value, pos, innerSpacing, outerSpacing)
  {
    match adapterItemCount
    case None => outRect
    case Some(n) => ItemOffsets(n, pos, innerSpacing, outerSpacing)
  }

  /** The horizontal margins of the first `k` cells of a strip of `itemCount`. */
  function StripMargins(itemCount: int, innerSpacing: int, outerSpacing: int, k: nat): int
    decreases k
  {
    if k == 0 then 0
    else
      var m := ItemOffsets(itemCount, k - 1, innerSpacing, outerSpacing);
      StripMargins(itemCount, innerSpacing, outerSpacing, k - 1) + m.left + m.right
  }

  /** A strip of `n` cells is padded by the outer spacing at both ends and by
      the inner spacing between each pair of neighbours. */
  lemma {:induction false} StripMarginsTotal(n: nat, innerSpacing: int, outerSpacing: int, k: nat)
    requires 1 <= k <= n
    ensures StripMargins(n, innerSpacing, outerSpacing, k)
            == outerSpacing + (k - 1) * innerSpacing + (if k == n then outerSpacing else 0)
    decreases k
  {
    if k > 1 {
      StripMarginsTotal(n, innerSpacing, outerSpacing, k - 1);
    }
  }

  /** The trailing "other items" cell, when shown, is the last cell and so
      closes the strip with the outer spacing. */
  lemma OtherItemClosesStrip(a: Adapter, innerSpacing: int, outerSpacing: int)
    requires HasOtherItem(a)
    ensures ItemViewType(a, ItemCount(a) - 1) == OtherItem
    ensures ItemOffsets(ItemCount(a), |a.previews|, innerSpacing, outerSpacing).right == outerSpacing
  {
  }
}

=== FILE: no_cross_profile_empty_state.dfy ===
/** The cross-profile blocker policy of the v2 resolver: for the tab being
    rendered, decide whether its target list is replaced by a "can't share
    across profiles" message. */
module NoCrossProfileEmptyState {
  import opened Wrappers
  import opened Users

  /** A device-policy blocker message: device-policy string ids for title and
      subtitle with static resource fallbacks, and the device-policy event it
      logs when shown. */
  datatype EmptyState = DevicePolicyBlocker(
    devicePolicyTitleId: string,
    defaultTitleResource: int,
    devicePolicySubtitleId: string,
    defaultSubtitleResource: int,
    eventId: int,
    eventCategory: string)

  /** One device-policy analytics event: its id and its category string. */
  datatype PolicyEvent = PolicyEvent(eventId: int, category: string)

  /** The provider's final fields. The profile helper is reduced to the profile
      the UI was launched as; its type lookup for other handles is a parameter
      of `GetEmptyState`. */
  datatype Provider = Provider(
    launchedAs: Profile,
    noWorkToPersonal: EmptyState,
    noPersonalToWork: EmptyState)

  /** What the policy reads of a tab's list adapter: its payload intents and the
      user that owns the tab. */
  datatype ListAdapter<I> = ListAdapter(intents: seq<I>, userHandle: UserHandle)

  /** The platform query "may any of these intents be forwarded from user
      `source` to user `target`", taking the two user ids. */
  type CrossProfileIntentsChecker<!I> = (seq<I>, int, int) -> bool

  /** The profile type the helper reports for a handle; `None` for a handle it
      does not know. */
  type ProfileTypeLookup = UserHandle -> Option<ProfileType>

  /** The title shown: the device-policy override when one is set, otherwise the
      static default resource. */
  function Title(e: EmptyState, overrides: string -> Option<string>, resources: int -> string): (t: string)
    ensures overrides(e.devicePolicyTitleId).Some? ==> t == overrides(e.devicePolicyTitleId).value
    ensures overrides(e.devicePolicyTitleId).None? ==> t == resources(e.defaultTitleResource)
  {
    overrides(e.devicePolicyTitleId).GetOr(resources(e.defaultTitleResource))
  }

  /** The subtitle shown, chosen the same way as the title. */
  function Subtitle(e: EmptyState, overrides: string -> Option<string>, resources: int -> string): (t: string)
    ensures overrides(e.devicePolicySubtitleId).Some? ==> t == overrides(e.devicePolicySubtitleId).value
    ensures overrides(e.devicePolicySubtitleId).None? ==> t == resources(e.defaultSubtitleResource)
  {
    overrides(e.devicePolicySubtitleId).GetOr(resources(e.defaultSubtitleResource))
  }

  /** The strings depend on the resources only through the message's own
      default resources, and not at all once the device policy overrides them;
      the title never reads the subtitle's override or resource, and vice versa. */
  lemma StringsReadOnlyTheirOwnSources(e: EmptyState, ov1: string -> Option<string>, ov2: string -> Option<string>,
                                       res1: int -> string, res2: int -> string)
    ensures ov1(e.devicePolicyTitleId) == ov2(e.devicePolicyTitleId)
            && (ov1(e.devicePolicyTitleId).None? ==> res1(e.defaultTitleResource) == res2(e.defaultTitleResource))
            ==> Title(e, ov1, res1) == Title(e, ov2, res2)
    ensures ov1(e.devicePolicySubtitleId) == ov2(e.devicePolicySubtitleId)
            && (ov1(e.devicePolicySubtitleId).None? ==> res1(e.defaultSubtitleResource) == res2(e.defaultSubtitleResource))
            ==> Subtitle(e, ov1, res1) == Subtitle(e, ov2, res2)
  {
  }

  /** Showing the message writes its event to the log, every time it is shown. */
  function OnEmptyStateShown(e: EmptyState, log: seq<PolicyEvent>): (log': seq<PolicyEvent>)
    ensures |log'| == |log| + 1
    ensures log'[..|log|] == log
    ensures log'[|log|] == PolicyEvent(e.eventId, e.eventCategory)
  {
    log + [PolicyEvent(e.eventId, e.eventCategory)]
  }

  /** Showing the message `k` times in a row. */
  function ShowRepeatedly(e: EmptyState, log: seq<PolicyEvent>, k: nat): seq<PolicyEvent>
    decreases k
  {
    if k == 0 then log else ShowRepeatedly(e, OnEmptyStateShown(e, log), k - 1)
  }

  /** Nothing makes the event "once per display": `k` showings log `k` events,
      all equal to the message's event, after the untouched earlier log. */
  lemma {:induction false} ShowRepeatedlyLogsEveryTime(e: EmptyState, log: seq<PolicyEvent>, k: nat)
    ensures |ShowRepeatedly(e, log, k)| == |log| + k
    ensures ShowRepeatedly(e, log, k)[..|log|] == log
    ensures forall i :: |log| <= i < |log| + k ==>
              ShowRepeatedly(e, log, k)[i] == PolicyEvent(e.eventId, e.eventCategory)
    decreases k
  {
    if k > 0 {
      var log1 := OnEmptyStateShown(e, log);
      ShowRepeatedlyLogsEveryTime(e, log1, k - 1);
      var r := ShowRepeatedly(e, log, k);
      assert r == ShowRepeatedly(e, log1, k - 1);
      assert r[..|log1|] == log1;
      assert r[..|log|] == log1[..|log|];
      forall i | |log| <= i < |log| + k
        ensures r[i] == PolicyEvent(e.eventId, e.eventCategory)
      {
        if i == |log| {
          assert r[i] == r[..|log1|][i];
        }
      }
    }
  }

  /** A blocker never lets the list be rebuilt behind it. */
  function ShouldSkipDataRebuild(e: EmptyState): (skip: bool)
    ensures skip
  {
    true
  }

  /** The query for "is at least one target allowed across profiles": the
      intents of the tab, from `source` to the tab's own user. Whatever
      `source` is, the target of the query is the tab owner. */
  function AnyCrossProfileAllowedIntents<I>(checker: CrossProfileIntentsChecker<I>,
                                           selected: ListAdapter<I>, source: UserHandle): (allowed: bool)
    ensures allowed <==> checker(selected.intents, source.id, selected.userHandle.id)
  {
    checker(selected.intents, source.id, selected.userHandle.id)
  }

  /** The blocker for the tab owned by `adapter.userHandle`, or `None` when the
      tab shows its targets. */
  function GetEmptyState<I>(p: Provider, adapter: ListAdapter<I>,
                            findProfileType: ProfileTypeLookup,
                            checker: CrossProfileIntentsChecker<I>): (r: Option<EmptyState>)
    // not applicable when either side is a private profile
    ensures p.launchedAs.kind == Private ==> r == None
    ensures findProfileType(adapter.userHandle) == Some(Private) ==> r == None
    // a tab owned by the launching user is never blocked
    ensures p.launchedAs.primary == adapter.userHandle ==> r == None
    // the checker is asked about the tab owner as both source and target
    ensures checker(adapter.intents, adapter.userHandle.id, adapter.userHandle.id) ==> r == None
    // when none of the above lets the tab through, the launching type picks the direction
    ensures p.launchedAs.kind != Private && findProfileType(adapter.userHandle) != Some(Private)
            && p.launchedAs.primary != adapter.userHandle
            && !checker(adapter.intents, adapter.userHandle.id, adapter.userHandle.id)
            ==> match p.launchedAs.kind
                case Work => r == Some(p.noWorkToPersonal)
                case Personal => r == Some(p.noPersonalToWork)
                case _ => r == None
    // nothing else is ever returned
    ensures r == None || r == Some(p.noWorkToPersonal) || r == Some(p.noPersonalToWork)
  {
    var launchedAsProfile := p.launchedAs;
    var tabOwnerHandle := adapter.userHandle;
    var launchedAsSameUser := launchedAsProfile.primary == tabOwnerHandle;
    var tabOwnerType := findProfileType(tabOwnerHandle);
    if launchedAsProfile.kind == Private || tabOwnerType == Some(Private) then
      None
    else if launchedAsSameUser || AnyCrossProfileAllowedIntents(checker, adapter, tabOwnerHandle) then
      None
    else
      match launchedAsProfile.kind
      case Work => Some(p.noWorkToPersonal)
      case Personal => Some(p.noPersonalToWork)
      case _ => None
  }

  /** Whatever the policy returns asks the screen to skip rebuilding the list. */
  lemma BlockerSkipsDataRebuild<I>(p: Provider, adapter: ListAdapter<I>,
                                   findProfileType: ProfileTypeLookup,
                                   checker: CrossProfileIntentsChecker<I>)
    ensures var r := GetEmptyState(p, adapter, findProfileType, checker);
            r.Some? ==> ShouldSkipDataRebuild(r.value)
  {
  }

  /** Because the checker is only ever asked about a user forwarding to itself,
      if the checker is assumed to answer no to every same-user query, the
      decision is independent of every intent: it equals the decision made
      with a checker that always says no. */
  lemma SelfOnlyQueryIgnoresForwardingRules<I>(p: Provider, adapter: ListAdapter<I>,
                                               findProfileType: ProfileTypeLookup,
                                               checker: CrossProfileIntentsChecker<I>)
    requires forall xs: seq<I>, u: int :: !checker(xs, u, u)
    ensures GetEmptyState(p, adapter, findProfileType, checker)
            == GetEmptyState(p, adapter, findProfileType, (xs: seq<I>, s: int, t: int) => false)
  {
  }

  /** The decision depends on the checker only through its answer for the
      tab owner forwarding to itself. */
  lemma OnlyDiagonalQueryMatters<I>(p: Provider, adapter: ListAdapter<I>,
                                    findProfileType: ProfileTypeLookup,
                                    c1: CrossProfileIntentsChecker<I>, c2: CrossProfileIntentsChecker<I>)
    requires c1(adapter.intents, adapter.userHandle.id, adapter.userHandle.id)
             == c2(adapter.intents, adapter.userHandle.id, adapter.userHandle.id)
    ensures GetEmptyState(p, adapter, findProfileType, c1) == GetEmptyState(p, adapter, findProfileType, c2)
  {
  }
}

=== FILE: preview_selections.dfy ===
/** The share sheet's store of selected previews: a set that stays
    uninitialised (null) until the first full selection is set, and that
    single-item changes leave alone until then. */
module PreviewSelections {
  import opened Wrappers

  /** The repository's one mutable value. */
  datatype Repository<T> = Repository(selections: Option<set<T>>)

  /** Whether `x` is currently selected (never, before initialisation). */
  predicate IsSelected<T>(r: Repository<T>, x: T) {
    r.selections.Some? && x in r.selections.value
  }

  /** The repository as created: not yet initialised. */
  function Initial<T(!new)>(): (r: Repository<T>)
    ensures r.selections.None?
    ensures forall x: T :: !IsSelected(r, x)
  {
    Repository(None)
  }

  /** `setSelection`: the state becomes exactly `selection`, whatever it was. */
  function SetSelection<T(!new)>(r: Repository<T>, selection: set<T>): (r': Repository<T>)
    ensures r'.selections == Some(selection)
    ensures forall x :: IsSelected(r', x) <==> x in selection
  {
    Repository(Some(selection))
  }

  /** `select`: add `item` to an initialised selection; no-op before that. */
  function Select<T(!new)>(r: Repository<T>, item: T): (r': Repository<T>)
    ensures r.selections.None? ==> r' == r
    ensures r.selections.Some? ==> r'.selections == Some(r.selections.value + {item})
    ensures r.selections.Some? ==> IsSelected(r', item)
    ensures forall y :: y != item ==> (IsSelected(r', y) <==> IsSelected(r, y))
  {
    match r.selections
    case Some(s) => Repository(Some(s + {item}))
    case None => Repository(None)
  }

  /** `unselect`: remove `item` from an initialised selection; no-op before that. */
  function Unselect<T(!new)>(r: Repository<T>, item: T): (r': Repository<T>)
    ensures r.selections.None? ==> r' == r
    ensures r.selections.Some? ==> r'.selections == Some(r.selections.value - {item})
    ensures !IsSelected(r', item)
    ensures forall y :: y != item ==> (IsSelected(r', y) <==> IsSelected(r, y))
  {
    match r.selections
    case Some(s) => Repository(Some(s - {item}))
    case None => Repository(None)
  }

  /** Selecting twice is selecting once. */
  lemma SelectIdempotent<T(!new)>(r: Repository<T>, item: T)
    ensures Select(Select(r, item), item) == Select(r, item)
  {
    if r.selections.Some? {
      assert r.selections.value + {item} + {item} == r.selections.value + {item};
    }
  }

  /** Unselecting an item that is not selected changes nothing. */
  lemma UnselectAbsentIsNoOp<T(!new)>(r: Repository<T>, item: T)
    requires !IsSelected(r, item)
    ensures Unselect(r, item) == r
  {
    if r.selections.Some? {
      assert r.selections.value - {item} == r.selections.value;
    }
  }

  /** `unselect` undoes `select` of an item that was not selected, and
      `select` undoes `unselect` of one that was. */
  lemma SelectUnselectInverse<T(!new)>(r: Repository<T>, item: T)
    ensures !IsSelected(r, item) ==> Unselect(Select(r, item), item) == r
    ensures IsSelected(r, item) ==> Select(Unselect(r, item), item) == r
  {
    if r.selections.Some? {
      var s := r.selections.value;
      if item !in s {
        assert s + {item} - {item} == s;
      } else {
        assert s - {item} + {item} == s;
      }
    }
  }

  /** One call on the repository. */
  datatype Op<T> = SetSelectionOp(selection: set<T>) | SelectOp(item: T) | UnselectOp(item: T)

  function Apply<T(!new)>(r: Repository<T>, op: Op<T>): Repository<T> {
    match op
    case SetSelectionOp(s) => SetSelection(r, s)
    case SelectOp(x) => Select(r, x)
    case UnselectOp(x) => Unselect(r, x)
  }

  /** The states after each call of `ops`, in order. */
  function Trace<T(!new)>(r: Repository<T>, ops: seq<Op<T>>): (states: seq<Repository<T>>)
    ensures |states| == |ops|
    decreases |ops|
  {
    if |ops| == 0 then [] else
      var r1 := Apply(r, ops[0]);
      [r1] + Trace(r1, ops[1..])
  }

  /** Until the first `setSelection`, the repository stays uninitialised: no
      sequence of `select`/`unselect` calls initialises it. */
  lemma {:induction false} UninitialisedUntilSet<T(!new)>(ops: seq<Op<T>>)
    requires forall i :: 0 <= i < |ops| ==> !ops[i].SetSelectionOp?
    ensures forall i :: 0 <= i < |ops| ==> Trace(Initial<T>(), ops)[i].selections.None?
    decreases |ops|
  {
    if |ops| > 0 {
      var rest := ops[1..];
      assert forall i :: 0 <= i < |rest| ==> rest[i] == ops[i + 1];
      UninitialisedUntilSet(rest);
      assert Apply(Initial<T>(), ops[0]) == Initial<T>();
      var t := Trace(Initial<T>(), ops);
      assert t == [Initial<T>()] + Trace(Initial<T>(), rest);
      forall i | 0 <= i < |ops|
        ensures t[i].selections.None?
      {
        if i > 0 {
          assert t[i] == Trace(Initial<T>(), rest)[i - 1];
        }
      }
    }
  }

  /** Once initialised, the repository stays initialised: every later state
      holds a set. */
  lemma {:induction false} InitialisedStaysInitialised<T(!new)>(r: Repository<T>, ops: seq<Op<T>>)
    requires r.selections.Some?
    ensures forall i :: 0 <= i < |ops| ==> Trace(r, ops)[i].selections.Some?
    decreases |ops|
  {
    if |ops| > 0 {
      var r1 := Apply(r, ops[0]);
      InitialisedStaysInitialised(r1, ops[1..]);
      var t := Trace(r, ops);
      assert t == [r1] + Trace(r1, ops[1..]);
      forall i | 0 <= i < |ops|
        ensures t[i].selections.Some?
      {
        if i > 0 {
          assert t[i] == Trace(r1, ops[1..])[i - 1];
        }
      }
    }
  }

  /** The exposed flow: the states with null filtered out, in order. */
  function Emitted<T>(states: seq<Repository<T>>): (out: seq<set<T>>)
    ensures |out| <= |states|
    ensures forall i :: 0 <= i < |out| ==> exists j :: 0 <= j < |states| && states[j].selections == Some(out[i])
    ensures |states| == 1 ==> out == (if states[0].selections.Some? then [states[0].selections.value] else [])
    ensures |states| > 0 && states[0].selections.Some? ==> |out| > 0 && out[0] == states[0].selections.value
    ensures (forall j :: 0 <= j < |states| ==> states[j].selections.Some?) ==>
              |out| == |states| && forall i :: 0 <= i < |out| ==> out[i] == states[i].selections.value
    ensures (forall j :: 0 <= j < |states| ==> states[j].selections.None?) ==> out == []
    decreases |states|
  {
    if |states| == 0 then []
    else
      var rest := Emitted(states[1..]);
      assert forall j :: 1 <= j < |states| ==> states[j] == states[1..][j - 1];
      match states[0].selections
      case Some(s) => [s] + rest
      case None => rest
  }

  /** Filtering distributes over concatenation, so the flow keeps the order of
      the states it passes on. */
  lemma {:induction false} EmittedAppend<T>(a: seq<Repository<T>>, b: seq<Repository<T>>)
    ensures Emitted(a + b) == Emitted(a) + Emitted(b)
    decreases |a|
  {
    if |a| > 0 {
      assert (a + b)[1..] == a[1..] + b;
      EmittedAppend(a[1..], b);
    } else {
      assert a + b == b;
    }
  }

  /** Calls before initialisation leave the repository where it started, so
      the trace of what follows them starts afresh. */
  lemma {:induction false} UninitialisedPrefixSplitsTrace<T(!new)>(pre: seq<Op<T>>, rest: seq<Op<T>>)
    requires forall i :: 0 <= i < |pre| ==> !pre[i].SetSelectionOp?
    ensures Trace(Initial<T>(), pre + rest) == Trace(Initial<T>(), pre) + Trace(Initial<T>(), rest)
    decreases |pre|
  {
    if |pre| == 0 {
      assert pre + rest == rest;
    } else {
      var tail := pre[1..];
      assert forall i :: 0 <= i < |tail| ==> tail[i] == pre[i + 1];
      UninitialisedPrefixSplitsTrace(tail, rest);
      assert Apply(Initial<T>(), pre[0]) == Initial<T>();
      assert (pre + rest)[0] == pre[0];
      assert (pre + rest)[1..] == tail + rest;
    }
  }

  /** Nothing passes the null filter until the first `setSelection`; that
      call's set is the first value to pass it, and every later call's state
      passes it too. The state flow's dropping of a value equal to the previous
      one is not part of `Emitted`, so a call that leaves the set unchanged still
      counts here. */
  lemma FirstEmissionIsFirstSetSelection<T(!new)>(pre: seq<Op<T>>, s: set<T>, post: seq<Op<T>>)
    requires forall i :: 0 <= i < |pre| ==> !pre[i].SetSelectionOp?
    ensures Emitted(Trace(Initial<T>(), pre)) == []
    ensures Emitted(Trace(Initial<T>(), pre + [SetSelectionOp(s)] + post))
            == [s] + Emitted(Trace(Repository(Some(s)), post))
    ensures |Emitted(Trace(Initial<T>(), pre + [SetSelectionOp(s)] + post))| == 1 + |post|
  {
    var tail := [SetSelectionOp(s)] + post;
    assert pre + [SetSelectionOp(s)] + post == pre + tail;
    UninitialisedUntilSet(pre);
    UninitialisedPrefixSplitsTrace(pre, tail);
    var tPre := Trace(Initial<T>(), pre);
    var tPost := Trace(Repository(Some(s)), post);
    assert tail[1..] == post;
    assert Trace(Initial<T>(), tail) == [Repository(Some(s))] + tPost;
    EmittedAppend(tPre, [Repository(Some(s))] + tPost);
    EmittedAppend([Repository(Some(s))], tPost);
    InitialisedStaysInitialised(Repository(Some(s)), post);
  }
}

=== FILE: resolver_action_title.dfy ===
/** The resolver's title table: each intent action maps to the strings used for
    the dialog title, and any other action falls back to the generic title. */
module ResolverActionTitle {
  import opened Wrappers

  datatype ActionTitle = View | Edit | Send | SendTo | SendMultiple | CaptureImage | Default | Home

  const ACTION_VIEW: string := "android.intent.action.VIEW"
  const ACTION_EDIT: string := "android.intent.action.EDIT"
  const ACTION_SEND: string := "android.intent.action.SEND"
  const ACTION_SENDTO: string := "android.intent.action.SENDTO"
  const ACTION_SEND_MULTIPLE: string := "android.intent.action.SEND_MULTIPLE"
  const ACTION_IMAGE_CAPTURE: string := "android.media.action.IMAGE_CAPTURE"
  const ACTION_MAIN: string := "android.intent.action.MAIN"

  /** The action each entry stands for; the generic entry has none. */
  function Action(t: ActionTitle): Option<string> {
    match t
    case View => Some(ACTION_VIEW)
    case Edit => Some(ACTION_EDIT)
    case Send => Some(ACTION_SEND)
    case SendTo => Some(ACTION_SENDTO)
    case SendMultiple => Some(ACTION_SEND_MULTIPLE)
    case CaptureImage => Some(ACTION_IMAGE_CAPTURE)
    case Default => None
    case Home => Some(ACTION_MAIN)
  }

  /** The entries in declaration order, as `values()` lists them. */
  const Values: seq<ActionTitle> := [View, Edit, Send, SendTo, SendMultiple, CaptureImage, Default, Home]

  /** The loop's test: the entry is not HOME and the (non-null) action equals its action. */
  predicate Matches(t: ActionTitle, action: Option<string>) {
    t != Home && action.Some? && Action(t) == action
  }

  /** The first entry of `titles` that matches `action`, if any. */
  function FindTitle(titles: seq<ActionTitle>, action: Option<string>): (r: Option<ActionTitle>)
    ensures r.None? <==> forall i :: 0 <= i < |titles| ==> !Matches(titles[i], action)
    ensures r.Some? ==> exists i :: 0 <= i < |titles| && titles[i] == r.value && Matches(titles[i], action)
                                    && forall j :: 0 <= j < i ==> !Matches(titles[j], action)
    decreases |titles|
  {
    if |titles| == 0 then None
    else if Matches(titles[0], action) then Some(titles[0])
    else
      var rest := FindTitle(titles[1..], action);
      assert forall i :: 1 <= i < |titles| ==> titles[i] == titles[1..][i - 1];
      rest
  }

  /** The title entry for an intent action. */
  function ForAction(action: Option<string>): (t: ActionTitle)
    ensures t != Home
    ensures action.None? ==> t == Default
    ensures t != Default ==> Action(t) == action
    ensures t == Default <==> forall i :: 0 <= i < |Values| ==> !Matches(Values[i], action)
  {
    FindTitle(Values, action).GetOr(Default)
  }

  /** Every entry other than DEFAULT and HOME is found again from its own action. */
  lemma ForActionInvertsAction(t: ActionTitle)
    requires t != Default && t != Home
    ensures ForAction(Action(t)) == t
  {
  }

  /** The launcher's action is deliberately never given the HOME title here. */
  lemma MainActionGetsDefaultTitle()
    ensures ForAction(Some(ACTION_MAIN)) == Default
  {
    assert forall i :: 0 <= i < |Values| ==> !Matches(Values[i], Some(ACTION_MAIN));
  }
}

=== FILE: resolver_autolaunch.dfy ===
/** The resolver's fast paths: the mini resolver, and launching the only
    target without showing any UI. */
module ResolverAutolaunch {
  import opened Wrappers
  import opened Users
  import opened ResolverTypes

  /** What the fast paths read of one tab's list adapter: the user owning the
      tab, and the unfiltered target list (its length is the unfiltered count,
      its entries the targets by position). */
  datatype TabList = TabList(
    userHandle: UserHandle,
    unfiltered: seq<TargetInfo>,
    hasOtherProfile: bool,
    displayResolveInfoCount: nat,
    allHandleAllWebDataUri: bool,
    tabLoaded: bool)

  /** The mini resolver is shown when, in the intent picker, this profile has
      only browsers and the other profile has exactly one non-browser target. */
  function ShouldUseMiniResolver(isIntentPicker: bool, active: Option<TabList>,
                                 inactive: Option<TabList>): (r: bool)
    ensures r <==> && isIntentPicker
                   && active.Some? && inactive.Some?
                   && active.value.displayResolveInfoCount > 0
                   && inactive.value.displayResolveInfoCount == 1
                   && !inactive.value.allHandleAllWebDataUri
                   && active.value.allHandleAllWebDataUri
  {
    if !isIntentPicker then false
    else if active.None? || inactive.None? then false
    else if active.value.displayResolveInfoCount == 0 then false
    else if inactive.value.displayResolveInfoCount != 1 then false
    else if inactive.value.allHandleAllWebDataUri then false
    else if !active.value.allHandleAllWebDataUri then false
    else true
  }

  /** A target may be launched without asking unless its app is suspended. */
  function ShouldAutoLaunchSingleChoice(t: TargetInfo): (r: bool)
    ensures r <==> !t.suspended
  {
    !t.suspended
  }

  /** The single-profile fast path: the target to launch, if any. */
  function MaybeAutolaunchIfSingleTarget(active: TabList): (launch: Option<TargetInfo>)
    ensures launch.Some? <==> |active.unfiltered| == 1 && !active.hasOtherProfile
                              && !active.unfiltered[0].suspended
    ensures launch.Some? ==> launch.value == active.unfiltered[0]
  {
    if |active.unfiltered| != 1 then None
    else if active.hasOtherProfile then None
    else
      var target := active.unfiltered[0];
      if ShouldAutoLaunchSingleChoice(target) then Some(target) else None
  }

  datatype ApplicationInfo = ApplicationInfo(crossProfile: bool, uid: int)

  datatype Permission = InteractAcrossUsersFull | InteractAcrossUsers

  const PERMISSION_GRANTED: int := 0

  /** The package-manager and permission queries the cross-profile test makes:
      the installed app's info (`None` when the package does not exist), the
      component-permission check of a permission for a uid, and the preflight
      check of the interact-across-profiles permission (or its app-op) for a
      uid and package. */
  datatype PackageOracle = PackageOracle(
    applicationInfo: string -> Option<ApplicationInfo>,
    checkComponentPermission: (Permission, int) -> int,
    checkInteractAcrossProfilesForPreflight: (int, string) -> int)

  /** An app may act across profiles when it is installed, declares the
      cross-profile flag, and holds at least one of the three permissions. */
  function CanAppInteractCrossProfiles(packageName: string, pm: PackageOracle): (r: bool)
    ensures pm.applicationInfo(packageName).None? ==> !r
    ensures pm.applicationInfo(packageName).Some? && !pm.applicationInfo(packageName).value.crossProfile ==> !r
    ensures pm.applicationInfo(packageName).Some? && pm.applicationInfo(packageName).value.crossProfile ==>
              var uid := pm.applicationInfo(packageName).value.uid;
              (r <==> || pm.checkComponentPermission(InteractAcrossUsersFull, uid) == PERMISSION_GRANTED
                      || pm.checkComponentPermission(InteractAcrossUsers, uid) == PERMISSION_GRANTED
                      || pm.checkInteractAcrossProfilesForPreflight(uid, packageName) == PERMISSION_GRANTED)
  {
    match pm.applicationInfo(packageName)
    case None => false
    case Some(info) =>
      if !info.crossProfile then false
      else
        var packageUid := info.uid;
        if pm.checkComponentPermission(InteractAcrossUsersFull, packageUid) == PERMISSION_GRANTED then true
        else if pm.checkComponentPermission(InteractAcrossUsers, packageUid) == PERMISSION_GRANTED then true
        else if pm.checkInteractAcrossProfilesForPreflight(packageUid, packageName) == PERMISSION_GRANTED then true
        else false
  }

  /** `pm2` grants at least what `pm1` grants, for the same installed apps. */
  ghost predicate GrantsAtLeast(pm1: PackageOracle, pm2: PackageOracle) {
    && (forall p :: pm1.applicationInfo(p) == pm2.applicationInfo(p))
    && (forall q, u :: pm1.checkComponentPermission(q, u) == PERMISSION_GRANTED
                       ==> pm2.checkComponentPermission(q, u) == PERMISSION_GRANTED)
    && (forall u, p :: pm1.checkInteractAcrossProfilesForPreflight(u, p) == PERMISSION_GRANTED
                       ==> pm2.checkInteractAcrossProfilesForPreflight(u, p) == PERMISSION_GRANTED)
  }

  /** Granting more permissions never takes the cross-profile right away. */
  lemma CanAppInteractCrossProfilesMonotone(packageName: string, pm1: PackageOracle, pm2: PackageOracle)
    requires GrantsAtLeast(pm1, pm2)
    ensures CanAppInteractCrossProfiles(packageName, pm1) ==> CanAppInteractCrossProfiles(packageName, pm2)
  {
  }

  /** The resolver's metrics category, the string its device-policy events carry. */
  const METRICS_CATEGORY_RESOLVER: string := "intent_resolver"

  /** The device-policy event written before a cross-profile auto-launch: a
      RESOLVER_AUTOLAUNCH_CROSS_PROFILE_TARGET event carrying whether the active
      tab is the personal one, and the metrics category. */
  datatype AutolaunchCrossProfileEvent = AutolaunchCrossProfileEvent(activeTabIsPersonal: bool, category: string)

  /** A cross-profile launch: the target started and the event logged first. */
  datatype CrossProfileLaunch = CrossProfileLaunch(target: TargetInfo, event: AutolaunchCrossProfileEvent)

  /** The two-profile fast path: one target on each tab, the same component on
      both, not suspended, and allowed to act across profiles. The event is
      logged exactly when the launch happens. */
  function MaybeAutolaunchIfCrossProfileSupported(active: TabList, inactive: TabList,
                                                  personal: UserHandle, pm: PackageOracle)
    : (launch: Option<CrossProfileLaunch>)
    ensures launch.Some? <==>
              && |active.unfiltered| == 1 && |inactive.unfiltered| == 1
              && active.unfiltered[0].resolvedComponent == inactive.unfiltered[0].resolvedComponent
              && !active.unfiltered[0].suspended
              && CanAppInteractCrossProfiles(active.unfiltered[0].resolvedComponent.packageName, pm)
    ensures launch.Some? ==> launch.value.target == active.unfiltered[0]
    ensures launch.Some? ==> launch.value.event
                             == AutolaunchCrossProfileEvent(active.userHandle == personal, METRICS_CATEGORY_RESOLVER)
  {
    if |active.unfiltered| != 1 then None
    else if |inactive.unfiltered| != 1 then None
    else
      var activeProfileTarget := active.unfiltered[0];
      var inactiveProfileTarget := inactive.unfiltered[0];
      if activeProfileTarget.resolvedComponent != inactiveProfileTarget.resolvedComponent then None
      else if !ShouldAutoLaunchSingleChoice(activeProfileTarget) then None
      else if !CanAppInteractCrossProfiles(activeProfileTarget.resolvedComponent.packageName, pm) then None
      else
        var event := AutolaunchCrossProfileEvent(active.userHandle == personal, METRICS_CATEGORY_RESOLVER);
        Some(CrossProfileLaunch(activeProfileTarget, event))
  }

  /** A cross-profile launch only ever starts an app that is installed and
      declares the cross-profile flag. */
  lemma CrossProfileLaunchNeedsCrossProfileFlag(active: TabList, inactive: TabList,
                                                personal: UserHandle, pm: PackageOracle)
    requires MaybeAutolaunchIfCrossProfileSupported(active, inactive, personal, pm).Some?
    ensures var pkg := active.unfiltered[0].resolvedComponent.packageName;
            pm.applicationInfo(pkg).Some? && pm.applicationInfo(pkg).value.crossProfile
  {
  }

  datatype Autolaunch =
    | NoAutolaunch
    | LaunchSingleTarget(target: TargetInfo)
    | LaunchCrossProfileTarget(target: TargetInfo, event: AutolaunchCrossProfileEvent)

  /** Which fast path, if any, fires for a pager with `numberOfProfiles` tabs. */
  function MaybeAutolaunchActivity(numberOfProfiles: int, active: TabList, inactive: Option<TabList>,
                                   personal: UserHandle, pm: PackageOracle): (r: Autolaunch)
    requires numberOfProfiles == 2 ==> inactive.Some?
    ensures r.LaunchSingleTarget? <==> numberOfProfiles == 1 && MaybeAutolaunchIfSingleTarget(active).Some?
    ensures r.LaunchCrossProfileTarget? <==>
              && numberOfProfiles == 2 && active.tabLoaded && inactive.value.tabLoaded
              && MaybeAutolaunchIfCrossProfileSupported(active, inactive.value, personal, pm).Some?
    // a launched target is the active tab's only target, and is not suspended
    ensures !r.NoAutolaunch? ==> |active.unfiltered| == 1 && r.target == active.unfiltered[0] && !r.target.suspended
    // a cross-profile launch starts the component both tabs resolved to, and logs its event
    ensures r.LaunchCrossProfileTarget? ==>
              && |inactive.value.unfiltered| == 1
              && inactive.value.unfiltered[0].resolvedComponent == r.target.resolvedComponent
              && r.event == AutolaunchCrossProfileEvent(active.userHandle == personal, METRICS_CATEGORY_RESOLVER)
  {
    if numberOfProfiles == 1 && MaybeAutolaunchIfSingleTarget(active).Some? then
      LaunchSingleTarget(MaybeAutolaunchIfSingleTarget(active).value)
    else if numberOfProfiles == 2 && active.tabLoaded && inactive.value.tabLoaded
            && MaybeAutolaunchIfCrossProfileSupported(active, inactive.value, personal, pm).Some? then
      var launch := MaybeAutolaunchIfCrossProfileSupported(active, inactive.value, personal, pm).value;
      LaunchCrossProfileTarget(launch.target, launch.event)
    else
      NoAutolaunch
  }

  /** After a rebuild the activity halts creation exactly when the rebuild has
      completed and a target was auto-launched; that target is then the active
      tab's only target and is not suspended. */
  function PostRebuildListInternal(rebuildCompleted: bool, numberOfProfiles: int, active: TabList,
                                   inactive: Option<TabList>, personal: UserHandle,
                                   pm: PackageOracle): (finishing: bool)
    requires numberOfProfiles == 2 ==> inactive.Some?
    ensures !rebuildCompleted ==> !finishing
    ensures finishing ==> |active.unfiltered| == 1 && !active.unfiltered[0].suspended
    ensures finishing ==> numberOfProfiles == 1 || numberOfProfiles == 2
    ensures finishing <==> rebuildCompleted && !MaybeAutolaunchActivity(numberOfProfiles, active, inactive, personal, pm).NoAutolaunch?
  {
    rebuildCompleted && MaybeAutolaunchActivity(numberOfProfiles, active, inactive, personal, pm) != NoAutolaunch
  }

  /** With both tabs present, the mini resolver and a cross-profile auto-launch
      never both apply: the mini resolver needs a browser-only active tab whose
      other tab holds a non-browser, while the launch needs the same component
      on both tabs. Stated for tabs whose display count is their unfiltered
      count and whose browser flag is a property of the component. */
  lemma MiniResolverExcludesCrossProfileLaunch(active: TabList, inactive: TabList, personal: UserHandle,
                                               pm: PackageOracle, isBrowser: ComponentName -> bool)
    requires active.displayResolveInfoCount == |active.unfiltered|
    requires inactive.displayResolveInfoCount == |inactive.unfiltered|
    requires active.allHandleAllWebDataUri <==> forall i :: 0 <= i < |active.unfiltered| ==> isBrowser(active.unfiltered[i].resolvedComponent)
    requires inactive.allHandleAllWebDataUri <==> forall i :: 0 <= i < |inactive.unfiltered| ==> isBrowser(inactive.unfiltered[i].resolvedComponent)
    ensures !(ShouldUseMiniResolver(true, Some(active), Some(inactive))
              && MaybeAutolaunchIfCrossProfileSupported(active, inactive, personal, pm).Some?)
  {
  }
}

=== FILE: resolver_preferred_activity.dfy ===
/** What the resolver records when the user picks a target: the set of
    components the user was shown and the best match level among them, handed
    to the package manager as a preferred ("always") or last-chosen activity. */
module ResolverPreferredActivity {
  import opened Wrappers
  import opened ResolverTypes

  /** The first resolve info of one unfiltered list entry: its component and
      the intent-filter match result (a Java `int`). */
  datatype ResolveInfo = ResolveInfo(component: ComponentName, matchLevel: int)

  /** The best match level: the largest of 0, every entry's level, and the
      other-profile entry's level when there is one. */
  predicate IsBestMatch(bestMatch: int, unfiltered: seq<ResolveInfo>, otherProfile: Option<ResolveInfo>) {
    && bestMatch >= 0
    && (forall i :: 0 <= i < |unfiltered| ==> unfiltered[i].matchLevel <= bestMatch)
    && (otherProfile.Some? ==> otherProfile.value.matchLevel <= bestMatch)
    && (|| bestMatch == 0
        || (exists i :: 0 <= i < |unfiltered| && unfiltered[i].matchLevel == bestMatch)
        || (otherProfile.Some? && otherProfile.value.matchLevel == bestMatch))
  }

  /** The component set and best match of the resolver's "always" bookkeeping:
      every unfiltered entry's component in order, then the forwarding
      component of the other profile when there is one. */
  method ComponentSetAndBestMatch(unfiltered: seq<ResolveInfo>, otherProfile: Option<ResolveInfo>)
    returns (components: seq<ComponentName>, bestMatch: int)
    ensures |components| == |unfiltered| + (if otherProfile.Some? then 1 else 0)
    ensures forall i :: 0 <= i < |unfiltered| ==> components[i] == unfiltered[i].component
    ensures otherProfile.Some? ==> components[|unfiltered|] == otherProfile.value.component
    ensures IsBestMatch(bestMatch, unfiltered, otherProfile)
  {
    var n := |unfiltered|;
    components := [];
    bestMatch := 0;
    var i := 0;
    while i < n
      invariant 0 <= i <= n
      invariant |components| == i
      invariant forall j :: 0 <= j < i ==> components[j] == unfiltered[j].component
      invariant IsBestMatch(bestMatch, unfiltered[..i], None)
    {
      var r := unfiltered[i];
      components := components + [r.component];
      if r.matchLevel > bestMatch {
        bestMatch := r.matchLevel;
      }
      assert unfiltered[..i + 1] == unfiltered[..i] + [r];
      i := i + 1;
    }
    assert unfiltered[..n] == unfiltered;
    if otherProfile.Some? {
      components := components + [otherProfile.value.component];
      if otherProfile.value.matchLevel > bestMatch {
        bestMatch := otherProfile.value.matchLevel;
      }
    }
  }

  /** Calls the selection makes on the package manager. */
  datatype PackageManagerCall =
    | AddUniquePreferredActivity(bestMatch: int, components: seq<ComponentName>, component: Option<ComponentName>)
    | SetDefaultBrowser(packageName: string)
    | SetLastChosen(bestMatch: int)

  /** The selected target as the selection handler reads it; `intentComponent`
      is the explicit component of the target's resolved intent (`None` for
      null), which is what the preferred activity is recorded for. */
  datatype SelectedTarget = SelectedTarget(
    target: TargetInfo,
    intentComponent: Option<ComponentName>,
    hasResolvedIntent: bool,
    handleAllWebDataUri: bool,
    activityPackageName: string)

  /** The active tab as the selection handler reads it: whether it shows a
      filtered (last used) item, and its unfiltered list when there is one. */
  datatype ActiveList = ActiveList(
    hasFilteredItem: bool,
    unfiltered: Option<seq<ResolveInfo>>,
    otherProfile: Option<ResolveInfo>)

  /** `TextUtils.isEmpty`: null or the empty string. */
  predicate IsEmpty(s: Option<string>) {
    s.None? || s.value == ""
  }

  /** How rebuilding the intent filter from the picked intent went. The filter
      becomes null only when the match category is TYPE and the resolved MIME
      type is malformed; `dataScheme` is then the scheme of the intent's data
      (`None` when the data or its scheme is null). */
  datatype FilterOutcome = Built | MalformedType(dataScheme: Option<string>)

  /** The scheme block after the MIME-type step runs for a TYPE match only when
      the scheme is neither "file" nor "content"; on a null filter its first
      call dereferences null. */
  predicate DereferencesNullFilter(filter: FilterOutcome) {
    && filter.MalformedType?
    && filter.dataScheme.Some?
    && filter.dataScheme.value != "file"
    && filter.dataScheme.value != "content"
  }

  /** The condition under which the selection handler rebuilds a filter at all. */
  predicate RebuildsFilter(t: SelectedTarget, supportsAlwaysUseOption: bool, active: ActiveList) {
    && t.hasResolvedIntent
    && (supportsAlwaysUseOption || active.hasFilteredItem)
    && active.unfiltered.Some?
  }

  datatype SelectionError = NullFilterDereference

  /** Handling a picked target, with the scheme block guarded by the null check
      the rest of the handler applies to the filter: a malformed MIME type skips
      the preference and still starts the target. The current default browser
      is `defaultBrowser` (`None` for null). Returns the package-manager calls
      made and whether the activity may finish. */
  method OnTargetSelected(t: SelectedTarget, always: bool, supportsAlwaysUseOption: bool,
                          active: ActiveList, filter: FilterOutcome, defaultBrowser: Option<string>)
    returns (calls: seq<PackageManagerCall>, finish: bool)
    // the activity stays only when the started target is suspended
    ensures finish <==> !t.target.suspended
    // a preference is recorded only for an intent, in an "always"-capable or
    // filtered list, with an unfiltered list, once a filter could be built
    ensures calls != [] <==>
              && t.hasResolvedIntent
              && (supportsAlwaysUseOption || active.hasFilteredItem)
              && active.unfiltered.Some?
              && filter.Built?
    ensures calls != [] && always ==>
              && calls[0].AddUniquePreferredActivity?
              && calls[0].component == t.intentComponent
              && IsBestMatch(calls[0].bestMatch, active.unfiltered.value, active.otherProfile)
              && |calls[0].components| == |active.unfiltered.value| + (if active.otherProfile.Some? then 1 else 0)
              && (forall i :: 0 <= i < |active.unfiltered.value| ==>
                    calls[0].components[i] == active.unfiltered.value[i].component)
              && (active.otherProfile.Some? ==>
                    calls[0].components[|active.unfiltered.value|] == active.otherProfile.value.component)
              && (|calls| == 2 <==> t.handleAllWebDataUri && IsEmpty(defaultBrowser))
              && (|calls| == 2 ==> calls[1] == SetDefaultBrowser(t.activityPackageName))
              && |calls| <= 2
    ensures calls != [] && !always ==>
              && |calls| == 1 && calls[0].SetLastChosen?
              && IsBestMatch(calls[0].bestMatch, active.unfiltered.value, active.otherProfile)
  {
    calls := [];
    if t.hasResolvedIntent && (supportsAlwaysUseOption || active.hasFilteredItem)
       && active.unfiltered.Some? && filter.Built? {
      var components, bestMatch := ComponentSetAndBestMatch(active.unfiltered.value, active.otherProfile);
      if always {
        calls := [AddUniquePreferredActivity(bestMatch, components, t.intentComponent)];
        if t.handleAllWebDataUri && IsEmpty(defaultBrowser) {
          calls := calls + [SetDefaultBrowser(t.activityPackageName)];
        }
      } else {
        calls := [SetLastChosen(bestMatch)];
      }
    }
    finish := !t.target.suspended;
  }

  /** Handling a picked target as the source is written: with a malformed MIME
      type and a data scheme other than "file" or "content", the scheme block
      runs on the null filter and the handler throws before starting anything.
      Every other input behaves as `OnTargetSelected`. */
  method OnTargetSelectedAsWritten(t: SelectedTarget, always: bool, supportsAlwaysUseOption: bool,
                                   active: ActiveList, filter: FilterOutcome, defaultBrowser: Option<string>)
    returns (r: Result<(seq<PackageManagerCall>, bool), SelectionError>)
    ensures r.Failure? <==> RebuildsFilter(t, supportsAlwaysUseOption, active) && DereferencesNullFilter(filter)
    ensures r.Failure? ==> r.error == NullFilterDereference
    ensures r.Success? ==> (r.value.1 <==> !t.target.suspended)
    ensures r.Success? ==> (r.value.0 != [] <==> RebuildsFilter(t, supportsAlwaysUseOption, active) && filter.Built?)
  {
    if RebuildsFilter(t, supportsAlwaysUseOption, active) && DereferencesNullFilter(filter) {
      r := Failure(NullFilterDereference);
    } else {
      var calls, finish := OnTargetSelected(t, always, supportsAlwaysUseOption, active, filter, defaultBrowser);
      r := Success((calls, finish));
    }
  }

  /** A concrete input on which the code as written throws: an "always" choice
      in a list that supports it, a MIME type that is malformed, and an https
      data URI. The guarded handler records nothing and starts the target. */
  method NullFilterCrashExample() returns (asWritten: Result<(seq<PackageManagerCall>, bool), SelectionError>,
                                            calls: seq<PackageManagerCall>, finish: bool)
    ensures asWritten == Failure(NullFilterDereference)
    ensures calls == [] && finish
  {
    var c := ComponentName("com.example", "com.example.Viewer");
    var t := SelectedTarget(TargetInfo(c, false), Some(c), true, false, "com.example");
    var active := ActiveList(false, Some([ResolveInfo(c, 0x00600000)]), None);
    var filter := MalformedType(Some("https"));
    asWritten := OnTargetSelectedAsWritten(t, true, true, active, filter, None);
    calls, finish := OnTargetSelected(t, true, true, active, filter, None);
  }
}

=== FILE: resolver_profile_tabs.dfy ===
/** How the resolver picks the tab it opens on, and which users the ranking
    service is told about. */
module ResolverProfileTabs {
  import opened Wrappers
  import opened Users

  /** Tab indices of the multi-profile pager. */
  const PROFILE_PERSONAL: int := 0
  const PROFILE_WORK: int := 1
  /** What the selected-profile extra reads as when it is absent. */
  const NO_PROFILE_EXTRA: int := -1

  /** The user handles the resolver was started with. */
  datatype AnnotatedUserHandles = AnnotatedUserHandles(
    personal: UserHandle,
    work: Option<UserHandle>,
    clone: Option<UserHandle>,
    tabOwnerForLaunch: UserHandle)

  /** An intent extra present under the selected-profile key: an `int`, or a
      value of some other type (which `getIntExtra` reads as its default, -1). */
  datatype IntExtra = IntValue(v: int) | OtherTypedValue

  datatype ResolverError = IllegalSelectedProfile(value: int)

  /** `getIntExtra(key, -1)` for a present extra. */
  function ReadIntExtra(x: IntExtra): int {
    match x
    case IntValue(v) => v
    case OtherTypedValue => NO_PROFILE_EXTRA
  }

  predicate IsProfileTab(v: int) {
    v == PROFILE_PERSONAL || v == PROFILE_WORK
  }

  /** The tab requested by the selected-profile extra; -1 when there is no
      such extra, an error when the extra names no tab. */
  function GetSelectedProfileExtra(extra: Option<IntExtra>): (r: Result<int, ResolverError>)
    ensures r == Success(NO_PROFILE_EXTRA) <==> extra.None?
    ensures extra.Some? && IsProfileTab(ReadIntExtra(extra.value)) ==> r == Success(ReadIntExtra(extra.value))
    ensures r.Failure? <==> extra.Some? && !IsProfileTab(ReadIntExtra(extra.value))
    ensures r.Failure? ==> r.error == IllegalSelectedProfile(ReadIntExtra(extra.value))
  {
    match extra
    case None => Success(NO_PROFILE_EXTRA)
    case Some(x) =>
      var selectedProfile := ReadIntExtra(x);
      if selectedProfile != PROFILE_PERSONAL && selectedProfile != PROFILE_WORK then
        Failure(IllegalSelectedProfile(selectedProfile))
      else
        Success(selectedProfile)
  }

  /** The default tab: the personal tab exactly when the launch's tab owner is
      the personal user. */
  function GetCurrentProfile(h: AnnotatedUserHandles): (r: int)
    ensures IsProfileTab(r)
    ensures r == PROFILE_PERSONAL <==> h.tabOwnerForLaunch == h.personal
  {
    if h.tabOwnerForLaunch == h.personal then PROFILE_PERSONAL else PROFILE_WORK
  }

  /** The calling-user extra of the starting intent: absent, or present with
      a handle that may be null (`None`). */
  datatype CallingUserExtra = NoCallingUser | CallingUser(handle: Option<UserHandle>)

  /** The user the starting intent came from: the calling-user extra's value
      when the extra is present (possibly null), the launch's tab owner when it
      is absent. */
  function GetIntentUser(h: AnnotatedUserHandles, callingUser: CallingUserExtra): (u: Option<UserHandle>)
    ensures callingUser.NoCallingUser? ==> u == Some(h.tabOwnerForLaunch)
    ensures callingUser.CallingUser? ==> u == callingUser.handle
  {
    match callingUser
    case NoCallingUser => Some(h.tabOwnerForLaunch)
    case CallingUser(handle) => handle
  }

  /** The tab a user's own profile is shown on, if it has one. */
  function TabOf(h: AnnotatedUserHandles, u: Option<UserHandle>): Option<int> {
    if u == Some(h.personal) then Some(PROFILE_PERSONAL)
    else if h.work.Some? && u == Some(h.work.value) then Some(PROFILE_WORK)
    else None
  }

  /** The tab the two-profile resolver opens on. When the intent came from a
      user other than the tab owner (a null intent user counts as other), the
      tab follows that user; otherwise a selected-profile extra, when present,
      overrides the default. */
  function InitialSelectedProfile(h: AnnotatedUserHandles, callingUser: CallingUserExtra,
                                  selectedExtra: Option<IntExtra>): (r: Result<int, ResolverError>)
    requires h.work.Some?
    ensures r.Success? ==> IsProfileTab(r.value)
    ensures var u := GetIntentUser(h, callingUser);
            u != Some(h.tabOwnerForLaunch) ==>
              r == Success(if u == Some(h.personal) then PROFILE_PERSONAL
                           else if u == Some(h.work.value) then PROFILE_WORK
                           else GetCurrentProfile(h))
    ensures var u := GetIntentUser(h, callingUser);
            u == Some(h.tabOwnerForLaunch) ==>
              && (r.Failure? <==> selectedExtra.Some? && !IsProfileTab(ReadIntExtra(selectedExtra.value)))
              && (r.Failure? ==> r.error == IllegalSelectedProfile(ReadIntExtra(selectedExtra.value)))
              && (selectedExtra.None? ==> r == Success(GetCurrentProfile(h)))
              && (r.Success? && selectedExtra.Some? ==> r.value == ReadIntExtra(selectedExtra.value))
  {
    var selectedProfile := GetCurrentProfile(h);
    var intentUser := GetIntentUser(h, callingUser);
    if Some(h.tabOwnerForLaunch) != intentUser then
      if Some(h.personal) == intentUser then Success(PROFILE_PERSONAL)
      else if Some(h.work.value) == intentUser then Success(PROFILE_WORK)
      else Success(selectedProfile)
    else
      var selectedProfileExtra :- GetSelectedProfileExtra(selectedExtra);
      if selectedProfileExtra != NO_PROFILE_EXTRA then Success(selectedProfileExtra)
      else Success(selectedProfile)
  }

  /** With neither extra supplied, the resolver opens on the personal tab
      exactly when it was launched for the personal user. */
  lemma NoExtrasOpensDefaultTab(h: AnnotatedUserHandles)
    requires h.work.Some?
    ensures InitialSelectedProfile(h, NoCallingUser, None) == Success(GetCurrentProfile(h))
    ensures InitialSelectedProfile(h, NoCallingUser, None) == Success(PROFILE_PERSONAL)
            <==> h.tabOwnerForLaunch == h.personal
  {
  }

  /** When the calling user differs from the tab owner the selected-profile
      extra is never read, so even a malformed one raises no error. */
  lemma CallingUserShadowsSelectedExtra(h: AnnotatedUserHandles, caller: UserHandle, x: IntExtra)
    requires h.work.Some?
    requires caller != h.tabOwnerForLaunch
    ensures InitialSelectedProfile(h, CallingUser(Some(caller)), Some(x)).Success?
    ensures InitialSelectedProfile(h, CallingUser(Some(caller)), Some(x))
            == InitialSelectedProfile(h, CallingUser(Some(caller)), None)
  {
  }

  /** A calling-user extra holding null differs from every tab owner: the
      resolver keeps its default tab and never reads the selected-profile
      extra. */
  lemma NullCallingUserKeepsDefaultTab(h: AnnotatedUserHandles, x: Option<IntExtra>)
    requires h.work.Some?
    ensures InitialSelectedProfile(h, CallingUser(None), x) == Success(GetCurrentProfile(h))
  {
  }

  /** When the launch's tab owner is one of the two profiles (and they are
      distinct), the default tab is the tab showing that owner, and an intent
      from either profile's user opens on that user's own tab. */
  lemma InitialTabShowsIntentUser(h: AnnotatedUserHandles, callingUser: CallingUserExtra)
    requires h.work.Some? && h.work.value != h.personal
    requires h.tabOwnerForLaunch == h.personal || h.tabOwnerForLaunch == h.work.value
    ensures TabOf(h, Some(h.tabOwnerForLaunch)) == Some(GetCurrentProfile(h))
    ensures TabOf(h, GetIntentUser(h, callingUser)).Some? ==>
              InitialSelectedProfile(h, callingUser, None) == Success(TabOf(h, GetIntentUser(h, callingUser)).value)
  {
  }

  /** The users whose usage the ranking service weighs for a tab: the tab's
      user, followed by the clone user when the tab is the personal one and a
      clone profile exists. */
  function RankerServiceUserHandles(h: AnnotatedUserHandles, userHandle: UserHandle): (r: seq<UserHandle>)
    ensures 1 <= |r| <= 2 && r[0] == userHandle
    ensures |r| == 2 <==> userHandle == h.personal && h.clone.Some?
    ensures |r| == 2 ==> r[1] == h.clone.value
  {
    var userList := [userHandle];
    if userHandle == h.personal && h.clone.Some? then userList + [h.clone.value] else userList
  }

  /** The clone user's usage is only ever weighed for the personal tab: the
      work tab's list holds the work user alone. */
  lemma WorkTabNeverRanksClone(h: AnnotatedUserHandles)
    requires h.work.Some? && h.work.value != h.personal
    ensures RankerServiceUserHandles(h, h.work.value) == [h.work.value]
    ensures h.clone.Some? && h.clone.value != h.work.value ==>
              h.clone.value !in RankerServiceUserHandles(h, h.work.value)
  {
  }
}

=== FILE: resolver_types.dfy ===
/** Targets as the resolver's decisions see them. */
module ResolverTypes {

  datatype ComponentName = ComponentName(packageName: string, className: string)

  /** A resolved target: the component it starts and whether its app is suspended. */
  datatype TargetInfo = TargetInfo(resolvedComponent: ComponentName, suspended: bool)
}

=== FILE: resolver_uri_match.dfy ===
/** Whether an intent-filter match result counts as a "specific" URI match.
    A match result is a Java `int` whose bits 16-27 hold the match category and
    whose low 16 bits hold an adjustment; it is modelled as its two's-complement
    32-bit pattern, so a negative `int` is a pattern with bit 31 set. */
module ResolverUriMatch {

  /** Intent-filter match-category constants of the Android platform. */
  const MATCH_CATEGORY_MASK: bv32 := 0x0FFF_0000
  const MATCH_ADJUSTMENT_MASK: bv32 := 0x0000_FFFF
  const MATCH_CATEGORY_EMPTY: bv32 := 0x0010_0000
  const MATCH_CATEGORY_SCHEME: bv32 := 0x0020_0000
  const MATCH_CATEGORY_HOST: bv32 := 0x0030_0000
  const MATCH_CATEGORY_PORT: bv32 := 0x0040_0000
  const MATCH_CATEGORY_PATH: bv32 := 0x0050_0000
  const MATCH_CATEGORY_SCHEME_SPECIFIC_PART: bv32 := 0x0058_0000
  const MATCH_CATEGORY_TYPE: bv32 := 0x0060_0000

  /** A match is specific when its category lies between HOST and PATH. In
      terms of the category's bits 20-27: they read 3 or 4, or they read 5 with
      bits 16-19 clear (exactly PATH). */
  function IsSpecificUriMatch(matchResult: bv32): (r: bool)
    ensures r <==> (3 <= ((matchResult >> 20) & 0xFF) < 5)
                   || (((matchResult >> 20) & 0xFF) == 5 && ((matchResult >> 16) & 0xF) == 0)
  {
    var category := matchResult & MATCH_CATEGORY_MASK;
    MATCH_CATEGORY_HOST <= category <= MATCH_CATEGORY_PATH
  }

  /** Only the category bits matter: the adjustment bits and the four top bits
      (the sign bit included) never change the answer. */
  lemma OnlyCategoryMatters(m1: bv32, m2: bv32)
    requires (m1 & MATCH_CATEGORY_MASK) == (m2 & MATCH_CATEGORY_MASK)
    ensures IsSpecificUriMatch(m1) == IsSpecificUriMatch(m2)
  {
  }

  /** Of the named categories, with any adjustment, exactly HOST, PORT and PATH
      are specific; SCHEME_SPECIFIC_PART lies above PATH and is not. */
  lemma NamedCategories(adjustment: bv32)
    requires (adjustment & MATCH_ADJUSTMENT_MASK) == adjustment
    ensures IsSpecificUriMatch(MATCH_CATEGORY_HOST | adjustment)
    ensures IsSpecificUriMatch(MATCH_CATEGORY_PORT | adjustment)
    ensures IsSpecificUriMatch(MATCH_CATEGORY_PATH | adjustment)
    ensures !IsSpecificUriMatch(MATCH_CATEGORY_EMPTY | adjustment)
    ensures !IsSpecificUriMatch(MATCH_CATEGORY_SCHEME | adjustment)
    ensures !IsSpecificUriMatch(MATCH_CATEGORY_SCHEME_SPECIFIC_PART | adjustment)
    ensures !IsSpecificUriMatch(MATCH_CATEGORY_TYPE | adjustment)
  {
  }
}

=== FILE: users.dfy ===
/** Users and profiles as the resolver sees them: a user handle is an opaque
    numeric identity, and every profile on the device has one of four types. */
module Users {

  /** A platform user handle; two handles are equal when their ids are. */
  datatype UserHandle = UserHandle(id: int)

  datatype ProfileType = Personal | Work | Clone | Private

  /** A profile: its type and the primary user that owns it. */
  datatype Profile = Profile(kind: ProfileType, primary: UserHandle)
}

=== FILE: wrappers.dfy ===
/** Failure-compatible wrappers used across the model: `Option` stands for a
    Java/Kotlin nullable value, `Result` for a value or a thrown exception. */
module Wrappers {

  datatype Option<+T> = None | Some(value: T) {

    /** Kotlin's `?:` — the value when present, the fallback otherwise. */
    function GetOr(default: T): T {
      match this
      case Some(v) => v
      case None => default
    }
  }

  datatype Result<+R, +E> = Success(value: R) | Failure(error: E) {

    predicate IsFailure() {
      Failure?
    }

    function PropagateFailure<U>(): Result<U, E>
      requires Failure?
    {
      Failure(error)
    }

    function Extract(): R
      requires Success?
    {
      value
    }
  }
}
